=== FILE: README.md ===
# Workflow session and run lifecycle, in Dafny

This project models the run-lifecycle core of the `Workflow` class in phidata
(`phi/workflow/workflow.py`). It covers four parts:

- **Identity.** Construction assigns the workflow id, the session id and the name.
- **Merge.** A stored session is folded into the instance. Unset scalars are
  filled in. The four dictionaries are merged, and the instance's values win.
  The stored run history replaces the local one wholesale.
- **Load and save.** Sessions are read from and written to the store. A session
  is loaded, or created when the store lacks it, with a cache short-circuit.
  Stored sessions can be renamed.
- **Run envelope.** A run stamps the run, session and workflow ids on what the
  user's run function returns. It collects the string content of a streamed
  result. It appends the run to the history and saves the session exactly once,
  after a single response or after a fully drained stream.

Everything is a value. A `Workflow` is an immutable record, and its store is a
`Store`: a map from session id to `SessionRecord`, plus a log of the read and
upsert calls made to it. The log lets the contracts state how many store calls
an operation makes and in what order. Every operation is a pure function, or
for the run itself a method, that returns the new workflow.

Modules, leaves first:

| file | module | models |
|---|---|---|
| `values.dfy` | `Values` | optional values, JSON-like `Value`, `Data` dictionaries, raise-or-return `Outcome` |
| `merge.dfy` | `MergeDict` | the recursive dictionary merge, with precedence and idempotence lemmas |
| `records.dfy` | `Records` | run responses, run records, stored memory, stored session records, history (de)serialization |
| `store.dfy` | `SessionStore` | the session store: read and upsert, with a call log |
| `workflow.dfy` | `WorkflowState` | the workflow record, construction, `get_*` snapshot, `from_workflow_session` |
| `sync.dfy` | `Sync` | `read_from_storage`, `write_to_storage`, `load_session`, `rename_session` |
| `runs.dfy` | `Runs` | `run_workflow`: single, streamed and unrecognised results |

Points of the code's behaviour that are easy to get wrong, all modelled as the
code has them:

- A run reads its session with `read_from_storage` (line 248). No session is
  created before the user's run function runs. A session the store lacks is
  first created by the write that ends the run.
- The run history is read all or nothing (lines 179-184). If any entry fails to
  deserialize, the whole history is left as it was, the good entries included.
- `rename_session` raises a plain exception for an unknown id. It also raises
  when the workflow has no store, and when the stored session has no session
  data, because subscripting `None` fails. None of these paths writes anything.
- The cache short-circuit of `load_session` returns the cached id even when the
  store no longer holds that session. The model keeps this behaviour.

## Model

| member | source | states |
|---|---|---|
| `WorkflowState.OrDefault` | phi/workflow/workflow.py:80-90 | a supplied non-empty id (or name) is kept; an unset or empty one is replaced by the fresh token (or the class name); the result is never empty |
| `WorkflowState.NewWorkflow` | phi/workflow/workflow.py:303-305 | after construction the workflow is identified: workflow id, session id and name are set and non-empty, supplied non-empty values are kept, otherwise fresh tokens / the class name are used; the other settings are carried over, nothing is cached, no run is recorded |
| `WorkflowState.WithKey` | phi/workflow/workflow.py:101-111 | the workflow/session dictionary handed to the store: the name (session name), when set, is recorded under "name" ("session_name"); every other key is exactly the workflow's own dictionary, empty when unset |
| `WorkflowState.GetWorkflowData` | phi/workflow/workflow.py:101-105 | the saved workflow dictionary holds the name under "name" when the name is set, and otherwise exactly the workflow's own dictionary (empty when unset) |
| `WorkflowState.GetSessionData` | phi/workflow/workflow.py:107-111 | the saved session dictionary holds the session name under "session_name" when it is set, and otherwise exactly the workflow's own session dictionary (empty when unset) |
| `WorkflowState.GetWorkflowSession` | phi/workflow/workflow.py:113-125 | the saved snapshot carries the workflow's session id, workflow id, user id, user dictionary and session state; its workflow and session dictionaries are exactly `GetWorkflowData` and `GetSessionData` of the workflow; its memory reads back as exactly the workflow's run history |
| `MergeDict.MergeData` | phi/workflow/workflow.py:144-147 | merging the workflow's dictionary into the stored one keeps the keys of both; a key only the store has keeps its stored value; a key the workflow sets to a non-dictionary value gets the workflow's value |
| `MergeDict.MergePrecedence` | phi/workflow/workflow.py:170-176 | at every depth the merged dictionary holds exactly the keys of either side, keeps every stored value the workflow does not set, and gives the workflow's values precedence at every leaf, nested dictionaries being merged in turn |
| `MergeDict.MergeOfUnique` | phi/workflow/workflow.py:144-147 | that level-by-level description of the merge admits only one dictionary, the merge itself |
| `MergeDict.MergeOfConsequences` | phi/workflow/workflow.py:144-147 | any dictionary that fits the description gives the workflow's leaves precedence and keeps, at every depth, the stored values the workflow does not set |
| `MergeDict.MergeSelf` | phi/workflow/workflow.py:172-175 | merging a dictionary into itself changes nothing |
| `MergeDict.MergeIdempotent` | phi/workflow/workflow.py:144-148 | merging the same workflow dictionary a second time changes nothing |
| `MergeDict.MergeAbsorb` | phi/workflow/workflow.py:144-148 | merging into the stored dictionary a dictionary that already holds its merge gives that merge back |
| `WorkflowState.MergeInto` | phi/workflow/workflow.py:150-156 | with nothing stored the workflow keeps its dictionary; with nothing local it adopts the stored one; with both it is their merge: exactly the keys of either at every depth, the workflow winning at every leaf, every stored value the workflow does not set kept |
| `WorkflowState.FromWorkflowSession` | phi/workflow/workflow.py:127-185 | session id, workflow id, user id, name and session name are taken from the stored session only when unset locally, and a set local value is never overwritten; each of the four dictionaries is merged with local precedence; the stored history replaces the local one exactly when every entry reads back, otherwise the history is unchanged; store, cache and run fields are untouched; an identified workflow stays identified |
| `WorkflowState.FromSessionIdempotent` | phi/workflow/workflow.py:127-185 | folding the same stored session in twice gives the same workflow as folding it in once |
| `WorkflowState.SnapshotRoundTrip` | phi/workflow/workflow.py:113-185 | folding a workflow's own snapshot back in leaves its ids, name, user dictionary, session state and run history unchanged |
| `WorkflowState.ResumeSession` | phi/workflow/workflow.py:178-184 | a new instance with the same session id and no user, user dictionary, session state of its own takes over the saved user, user dictionary, session state and the whole run history, element for element and in order |
| `Records.EncodeRuns` | phi/workflow/workflow.py:120 | the stored memory has one serialized entry per run, in order |
| `Records.DecodeRuns` | phi/workflow/workflow.py:179-184 | the stored history reads back if and only if every entry deserializes, and then yields exactly those runs in order |
| `Records.DecodeEncode` | phi/workflow/workflow.py:179-184 | a serialized history reads back as the same runs in the same order |
| `Values.AsText` | phi/workflow/workflow.py:141-142 | a stored name (and, at line 162, a stored session name) reads as text exactly when it is a string, and then as that very string; any other stored value reads as unset |
| `SessionStore.ReadSession` | phi/workflow/workflow.py:194 | a read logs one read call, changes no session, and returns the record filed under the id if and only if there is one |
| `SessionStore.UpsertSession` | phi/workflow/workflow.py:206 | an upsert logs one upsert call; an accepting store files the record under its id and echoes it, any other store changes nothing and answers nothing; records stay filed under their own ids |
| `Sync.ReadFromStorage` | phi/workflow/workflow.py:187-197 | without a store or session id nothing happens; otherwise exactly one read call is made, the cache is replaced by the store's answer even when it is nothing, and a found record is folded into the workflow |
| `Sync.WriteToStorage` | phi/workflow/workflow.py:199-207 | without a store nothing happens; otherwise exactly one upsert of the current snapshot is made and the cache becomes the store's echo (nothing if the store refused); no other field changes |
| `Sync.LoadSession` | phi/workflow/workflow.py:209-238 | a cached record of the same session, without force, returns the session id with no change and no store call; without a store it returns the id unchanged; otherwise one read; a found session is folded into the workflow and cached; an absent one is created by one upsert of the workflow's snapshot, raising exactly when the store refuses, with no other field changed; it always returns the workflow's session id and leaves it unchanged |
| `Sync.LoadSessionIdempotent` | phi/workflow/workflow.py:216-220 | after a successful load, a second load without force returns the same id, changes nothing and makes no store call |
| `Sync.RenameSession` | phi/workflow/workflow.py:353-358 | an unknown id (or a stored session without session data, or no store) raises after at most a read, with no upsert; otherwise one read and one upsert, after which the stored record differs only in "session_name" of its session data, other sessions are untouched, and the workflow's cache is left as it was |
| `Sync.RenameThenRead` | phi/workflow/workflow.py:353-358 | after a rename in an accepting store, a workflow of that session with no session name of its own reads the new name back |
| `Runs.TextsSnoc` | phi/workflow/workflow.py:268-270 | the accumulated content after one more item is the content so far followed by that item's string content |
| `Runs.Stamp` | phi/workflow/workflow.py:284-287 | a returned response (and, at lines 263-266, a yielded one) carries the run id, session id and workflow id of the workflow's run, and its content is untouched |
| `Runs.StampItem` | phi/workflow/workflow.py:261-273 | a run response item is stamped with the run, session and workflow ids, content unchanged; any other item is forwarded unchanged |
| `Runs.BeginRun` | phi/workflow/workflow.py:244-248 | a run records its id and input, starts a response stamped with the run's identity and no content, and makes exactly one store call, a read: no session is created before the run function runs; a found session is folded into the started workflow and cached, and otherwise only the cache is cleared |
| `Runs.FinishRun` | phi/workflow/workflow.py:275-278 | finishing appends exactly one run record (input and outer response) to the history, then makes exactly one upsert of the workflow's whole snapshot (as `write_to_storage`, lines 199-207): an accepting store files that snapshot under the session id, leaves every other session alone and the cache becomes the echo; a refusing store changes no session and the cache is cleared; the store keeps accepting or refusing as before; without a store only the history changes; the saved memory reads back as the history including the new run; no other field of the workflow changes |
| `Runs.RunWorkflow` | phi/workflow/workflow.py:244-301 | a streamed result delivers the first min(pulls, n) items, run responses stamped and other items unchanged, with the outer response keeping the run's identity and its content the in-order concatenation of their string contents (starting from ""); history append and write happen exactly once and only after the stream is drained; a single response is returned stamped, its content copied only if it is a string, with history appended and the session written before returning; any other result returns nothing with no append and no write; apart from the outer response, the history, the store and the cache, the workflow is as the start of the run left it; a finalized run in an accepting store saves the workflow's whole final snapshot under its session id and caches it, leaving other sessions alone; a run never changes whether the store accepts writes, and without a store the cache stays as the start of the run left it |

## Left out

- Runtime reflection in the constructor is not modelled. This covers the `inspect.signature` parameter table, the return-annotation string and swapping `run` for `run_workflow`. The user's run function is given as its result, a `UserResult`.
- A workflow class that does not override `run` is not modelled. Its `run` logs an error and returns `None` without going through `run_workflow`.
- An exception raised by the user's run function, or while a stream is being consumed, is not modelled.
- UUID generation is not modelled. Fresh workflow, session and run ids are parameters, and generated tokens are assumed non-empty.
- Logging, the `debug_mode` validator, `log_workflow_session` and the `PHI_MONITORING`, `PHI_TELEMETRY` and `PHI_DEBUG` environment reads are left out. They only have side effects.
- The concrete storage backend is left out. The store is a map with a read and upsert log, and an upsert either files and echoes the record or, in a store that does not accept writes, answers nothing. Timestamps the backend may add are not modelled, so the echo equals the record sent.
- `delete_session` is left out. It is a one-line call to the store.
- `phi/utils/merge_dict.py` is not part of this model. `MergeDict.MergeData` is the assumed behaviour of `merge_dictionaries`: recurse where both values are dictionaries, otherwise the workflow's value wins. The call sites only say that the stored dictionary is updated in place.
- The internals of `WorkflowSession`, `WorkflowMemory`, `WorkflowRun` and `RunResponse` are reduced to the fields this code reads and writes. A stored history entry either deserializes to a run or does not.
- Python aliasing and in-place mutation are replaced by value semantics. For example, `get_workflow_data` adds "name" to the workflow's own `workflow_data` dictionary, and the model leaves the workflow's dictionary as it was.
- Generator laziness is reduced to a count of next-item requests, `pulls`. The code after the last yield runs only when the consumer asks once more after the last item.
- The stamp ids are taken when the run starts, after its read, which assumes that nothing else uses the instance while a stream is being consumed. The source reads them at each pull. A second run on the same instance between pulls replaces `run_id` and `run_response` (lines 245-247); the first stream would then stamp the new ids (lines 264-266), add its content to the new response (line 270) and record the new run (line 276). The model does not cover this interleaving.
- WorkflowState.FromWorkflowSession: a stored "name" or "session_name" that is not a string is modelled as unset. The source assigns the raw stored value to the field.
- Values.AsText: the conversion behind the line above; a stored value that is not a string reads as unset instead of being taken as it is (lines 142 and 162).
- Runs.RunWorkflow: the user's run function is a method of the instance (lines 251 and 309), and it, or a streamed generator between pulls, may write to the instance, for example to `session_state`. Those writes are not modelled. The snapshot the run saves is the workflow as the start of the run (its read) left it, plus the outer response and the new run.
- Concurrency is left out. The source makes no claims for concurrent runs on one session.

=== FILE: merge.dfy ===
/**
  The merge applied when a stored session is folded into a workflow: the stored
  dictionary is updated with the workflow's own dictionary, recursing where both
  sides hold a nested dictionary and letting the workflow's value win everywhere
  else. Anything only the store knows survives.
 */
module MergeDict {
  import opened Values

  /** `merge_dictionaries(stored, local)`: the stored dictionary after the
      workflow's `local` dictionary has been merged into it. */
  function MergeData(stored: Data, local: Data): (r: Data)
    decreases Dict(local)
    ensures r.Keys == stored.Keys + local.Keys
    ensures forall k :: k in stored && k !in local ==> r[k] == stored[k]
    ensures forall k :: k in local && !local[k].Dict? ==> r[k] == local[k]
  {
    map k | k in stored.Keys + local.Keys ::
      if k in local then
        if k in stored && stored[k].Dict? && local[k].Dict? then
          Dict(MergeData(stored[k].entries, local[k].entries))
        else
          local[k]
      else
        stored[k]
  }

  /** `r` is `stored` with `local` merged in, at every depth: its keys are
      exactly those of either side, a key only the store holds keeps its
      stored value, and a key the workflow sets takes the workflow's value,
      unless both sides hold a dictionary there, in which case the two
      dictionaries are merged in the same way. */
  ghost predicate MergeOf(r: Data, stored: Data, local: Data)
    decreases Dict(local)
  {
    && r.Keys == stored.Keys + local.Keys
    && (forall k :: k in stored && k !in local ==> r[k] == stored[k])
    && (forall k :: k in local ==>
          if k in stored && stored[k].Dict? && local[k].Dict?
          then r[k].Dict? && MergeOf(r[k].entries, stored[k].entries, local[k].entries)
          else r[k] == local[k])
  }

  /** Every key the workflow sets is present in `r`, and at every non-dictionary
      leaf of `local` the value in `r` is the workflow's own. */
  ghost predicate LocalWins(r: Data, local: Data)
    decreases Dict(local)
  {
    forall k :: k in local ==>
      && k in r
      && if local[k].Dict? && r[k].Dict?
         then LocalWins(r[k].entries, local[k].entries)
         else r[k] == local[k]
  }

  /** Every key the store holds is present in `r`; where the workflow does not
      set it, the stored value is kept as it is, and where both sides hold a
      dictionary, the same holds one level down. */
  ghost predicate StoredSurvives(r: Data, stored: Data, local: Data)
    decreases Dict(local)
  {
    forall k :: k in stored ==>
      && k in r
      && (k !in local ==> r[k] == stored[k])
      && (k in local && stored[k].Dict? && local[k].Dict? ==>
            r[k].Dict? && StoredSurvives(r[k].entries, stored[k].entries, local[k].entries))
  }

  /** The merge is exactly `MergeOf` the two dictionaries; in particular it gives
      the workflow's values precedence at every leaf and keeps every stored
      value the workflow does not set, at every depth. */
  lemma {:induction false} MergePrecedence(stored: Data, local: Data)
    decreases Dict(local)
    ensures MergeOf(MergeData(stored, local), stored, local)
    ensures LocalWins(MergeData(stored, local), local)
    ensures StoredSurvives(MergeData(stored, local), stored, local)
  {
    var r := MergeData(stored, local);
    forall k | k in local && k in stored && stored[k].Dict? && local[k].Dict?
      ensures r[k].Dict? && MergeOf(r[k].entries, stored[k].entries, local[k].entries)
      ensures LocalWins(r[k].entries, local[k].entries)
      ensures StoredSurvives(r[k].entries, stored[k].entries, local[k].entries)
    {
      MergePrecedence(stored[k].entries, local[k].entries);
    }
    forall k | k in local && local[k].Dict? && !(k in stored && stored[k].Dict?)
      ensures LocalWins(r[k].entries, local[k].entries)
    {
      LocalWinsSelf(local[k].entries);
    }
  }

  /** `LocalWins` and `StoredSurvives` are two readings of `MergeOf`: any
      dictionary that is the merge gives the workflow's leaves precedence and
      keeps the stored values the workflow does not set. */
  lemma MergeOfConsequences(r: Data, stored: Data, local: Data)
    requires MergeOf(r, stored, local)
    ensures LocalWins(r, local) && StoredSurvives(r, stored, local)
  {
    MergeOfUnique(r, stored, local);
    MergePrecedence(stored, local);
  }

  /** `MergeOf` pins the result down: the merge is the only dictionary that
      satisfies it. */
  lemma {:induction false} MergeOfUnique(r: Data, stored: Data, local: Data)
    requires MergeOf(r, stored, local)
    decreases Dict(local)
    ensures r == MergeData(stored, local)
  {
    var m := MergeData(stored, local);
    forall k | k in r ensures r[k] == m[k] {
      if k in local && k in stored && stored[k].Dict? && local[k].Dict? {
        MergeOfUnique(r[k].entries, stored[k].entries, local[k].entries);
      }
    }
  }

  lemma {:induction false} LocalWinsSelf(m: Data)
    decreases Dict(m)
    ensures LocalWins(m, m)
  {
    forall k | k in m && m[k].Dict?
      ensures LocalWins(m[k].entries, m[k].entries)
    {
      LocalWinsSelf(m[k].entries);
    }
  }

  /** Merging a dictionary into itself changes nothing. */
  lemma {:induction false} MergeSelf(m: Data)
    decreases Dict(m)
    ensures MergeData(m, m) == m
  {
    forall k | k in m ensures MergeData(m, m)[k] == m[k] {
      if m[k].Dict? {
        MergeSelf(m[k].entries);
      }
    }
  }

  /** Merging the same workflow dictionary a second time changes nothing: once
      merged, the workflow's values already hold. */
  lemma {:induction false} MergeIdempotent(stored: Data, local: Data)
    decreases Dict(local)
    ensures MergeData(MergeData(stored, local), local) == MergeData(stored, local)
  {
    var r := MergeData(stored, local);
    forall k | k in local ensures MergeData(r, local)[k] == r[k] {
      if local[k].Dict? && r[k].Dict? {
        if k in stored && stored[k].Dict? {
          MergeIdempotent(stored[k].entries, local[k].entries);
        } else {
          MergeSelf(local[k].entries);
        }
      }
    }
  }

  /** Merging into the stored dictionary a dictionary that already holds the
      merge of the stored one gives that merge back. */
  lemma {:induction false} MergeAbsorb(stored: Data, local: Data)
    decreases Dict(local)
    ensures MergeData(stored, MergeData(stored, local)) == MergeData(stored, local)
  {
    var r := MergeData(stored, local);
    forall k | k in r ensures MergeData(stored, r)[k] == r[k] {
      if k in stored && stored[k].Dict? && r[k].Dict? {
        if k in local && local[k].Dict? {
          MergeAbsorb(stored[k].entries, local[k].entries);
        } else if k in local {
          assert false;
        } else {
          MergeSelf(stored[k].entries);
        }
      }
    }
  }
}

=== FILE: records.dfy ===
/**
  The records a workflow exchanges with its store: the response envelope of a
  run, the run record kept in the workflow's memory, the memory as the store
  holds it, and the stored session record.
 */
module Records {
  import opened Values

  /** A run response envelope. Only the fields the workflow reads or writes are
      kept: the three identity stamps and the content. */
  datatype RunResponse = RunResponse(
    runId: Option<string>,
    sessionId: Option<string>,
    workflowId: Option<string>,
    content: Option<Value>)

  /** The captured call arguments of a run, `{"args": ..., "kwargs": ...}`. */
  datatype RunInput = RunInput(args: seq<Value>, kwargs: Data)

  /** One entry of the workflow's run history. */
  datatype WorkflowRun = WorkflowRun(input: RunInput, response: RunResponse)

  /** A run history entry as the store holds it: either the serialized form of
      a run, or something that does not deserialize into one. */
  datatype StoredRun = Encoded(run: WorkflowRun) | Malformed(raw: Value)

  /** The workflow memory as the store holds it; `runs` is `None` when the
      stored memory has no "runs" key. */
  datatype MemoryDoc = MemoryDoc(runs: Option<seq<StoredRun>>)

  /** A stored workflow session. */
  datatype SessionRecord = SessionRecord(
    sessionId: string,
    workflowId: Option<string>,
    userId: Option<string>,
    memory: Option<MemoryDoc>,
    workflowData: Option<Data>,
    userData: Option<Data>,
    sessionData: Option<Data>,
    sessionState: Option<Data>)

  /** Serializes a run history, one entry per run, in order. */
  function EncodeRuns(runs: seq<WorkflowRun>): (raws: seq<StoredRun>)
    ensures |raws| == |runs|
    ensures forall i :: 0 <= i < |runs| ==> raws[i] == Encoded(runs[i])
  {
    if runs == [] then [] else [Encoded(runs[0])] + EncodeRuns(runs[1..])
  }

  /** Deserializes a stored run history. It is all or nothing: one entry that
      does not deserialize makes the whole history unreadable. */
  function DecodeRuns(raws: seq<StoredRun>): (r: Option<seq<WorkflowRun>>)
    ensures r.Some? <==> forall i :: 0 <= i < |raws| ==> raws[i].Encoded?
    ensures r.Some? ==> |r.value| == |raws|
    ensures r.Some? ==> forall i :: 0 <= i < |raws| ==> r.value[i] == raws[i].run
  {
    if raws == [] then Some([])
    else
      match raws[0]
      case Malformed(_) => None
      case Encoded(run) =>
        match DecodeRuns(raws[1..])
        case None => None
        case Some(rest) => Some([run] + rest)
  }

  /** A serialized history reads back as the same runs in the same order. */
  lemma DecodeEncode(runs: seq<WorkflowRun>)
    ensures DecodeRuns(EncodeRuns(runs)) == Some(runs)
  {
    var decoded := DecodeRuns(EncodeRuns(runs));
    assert decoded.Some?;
    assert decoded.value == runs;
  }
}

=== FILE: runs.dfy ===
/**
  The run envelope: a run stamps a fresh run id, reads the session, hands the
  user's run function's result back to the caller and, once the result has been
  delivered in full, appends the run to the history and saves the session.

  The user's run function is not modelled; its result is given as a
  `UserResult`. A streamed result is consumed by `pulls` requests for the next
  item: the first `min(pulls, n)` of its `n` items are delivered, and the code
  after the last item runs only when the consumer asks once more after it.
 */
module Runs {
  import opened Values
  import opened Records
  import opened SessionStore
  import opened WorkflowState
  import opened Sync

  /** An item a streaming run function yields: a run response, or anything else. */
  datatype Item = Response(response: RunResponse) | Foreign(value: Value)

  /** What the user's run function returned: an iterator of items, one run
      response, or anything else. */
  datatype UserResult = Stream(items: seq<Item>) | Single(response: RunResponse) | Other(value: Value)

  /** What `run_workflow` hands to its caller: the items the consumer received
      from the wrapping generator, the stamped response, or nothing. */
  datatype RunOutput = Streamed(yielded: seq<Item>) | Returned(response: RunResponse) | NoOutput

  function Min(a: nat, b: nat): nat {
    if a < b then a else b
  }

  /** The string content of an item; items that are not run responses, and
      responses whose content is not a string, contribute nothing. */
  function TextOf(item: Item): string {
    if item.Response? && item.response.content.Some? && item.response.content.value.Str? then
      item.response.content.value.s
    else
      ""
  }

  /** The string contents of the items, concatenated in order. */
  function Texts(items: seq<Item>): string {
    if items == [] then "" else TextOf(items[0]) + Texts(items[1..])
  }

  lemma {:induction false} TextsSnoc(items: seq<Item>, item: Item)
    ensures Texts(items + [item]) == Texts(items) + TextOf(item)
  {
    if items == [] {
      assert [] + [item] == [item];
    } else {
      assert (items + [item])[1..] == items[1..] + [item];
      TextsSnoc(items[1..], item);
    }
  }

  /** A run response stamped with the run id, session id and workflow id of the
      workflow's current run; its content is untouched. */
  function Stamp(r: RunResponse, w: Workflow): (s: RunResponse)
    ensures s.runId == w.runId && s.sessionId == w.sessionId && s.workflowId == w.workflowId
    ensures s.content == r.content
  {
    r.(runId := w.runId, sessionId := w.sessionId, workflowId := w.workflowId)
  }

  /** An item as the wrapping generator yields it: a run response is stamped,
      anything else is forwarded unchanged. */
  function StampItem(item: Item, w: Workflow): (r: Item)
    ensures item.Foreign? ==> r == item
    ensures item.Response? ==>
              && r.Response?
              && r.response.runId == w.runId
              && r.response.sessionId == w.sessionId
              && r.response.workflowId == w.workflowId
              && r.response.content == item.response.content
  {
    match item
    case Response(resp) => Response(Stamp(resp, w))
    case Foreign(_) => item
  }

  /** The start of `run_workflow`, before the user's run function is called: the
      run id, input and a fresh response stamped with the run's identity are
      recorded, and the session is read from the store. Nothing is written: no
      session is created before the run function runs. */
  function BeginRun(w: Workflow, runId: string, input: RunInput): (w0: Workflow)
    requires w.sessionId.Some?
    ensures w0.runId == Some(runId) && w0.runInput == Some(input)
    ensures w0.runResponse == RunResponse(Some(runId), w.sessionId, w.workflowId, None)
    ensures w0.sessionId == w.sessionId
    ensures w.storage.None? ==> w0 == w.(runId := w0.runId, runInput := w0.runInput, runResponse := w0.runResponse)
    ensures w.storage.Some? ==>
              var s := w.storage.value;
              var id := w.sessionId.value;
              var started := w.(runId := w0.runId, runInput := w0.runInput, runResponse := w0.runResponse,
                                storage := w0.storage, cached := w0.cached);
              && w0.storage == Some(s.(ops := s.ops + [Read(id)]))
              && (id !in s.sessions ==> w0.cached.None? && w0 == started)
              && (id in s.sessions ==>
                    w0.cached == Some(s.sessions[id]) && w0 == FromWorkflowSession(started, s.sessions[id]))
    ensures Identified(w) ==> Identified(w0) && w0.workflowId == w.workflowId && w0.name == w.name
    ensures StoreKeyed(w) ==> StoreKeyed(w0)
  {
    ReadFromStorage(w.(
      runId := Some(runId),
      runInput := Some(input),
      runResponse := RunResponse(Some(runId), w.sessionId, w.workflowId, None)))
  }

  /** The end of a delivered run: the run is appended to the history, and then
      the session, history included, is written to the store. */
  function FinishRun(w: Workflow): (w': Workflow)
    requires w.sessionId.Some? && w.runInput.Some?
    ensures w'.runs == w.runs + [WorkflowRun(w.runInput.value, w.runResponse)]
    ensures w'.runResponse == w.runResponse && w'.sessionId == w.sessionId
    ensures w' == w.(runs := w'.runs, storage := w'.storage, cached := w'.cached)
    ensures Identified(w) ==> Identified(w') && w'.workflowId == w.workflowId && w'.name == w.name
    ensures w.storage.None? ==> w' == w.(runs := w'.runs)
    ensures w.storage.Some? ==>
              && w'.storage.Some?
              && w'.storage.value.ops == w.storage.value.ops + [Upsert(w.sessionId.value)]
              && w'.storage.value.accepts == w.storage.value.accepts
              && (w.storage.value.accepts ==>
                    && w'.storage.value.sessions == w.storage.value.sessions[w.sessionId.value := GetWorkflowSession(w')]
                    && w'.cached == Some(GetWorkflowSession(w')))
              && (!w.storage.value.accepts ==>
                    w'.storage.value.sessions == w.storage.value.sessions && w'.cached.None?)
              && (w.storage.value.accepts ==>
                    && w.sessionId.value in w'.storage.value.sessions
                    && var saved := w'.storage.value.sessions[w.sessionId.value];
                    && saved.memory.Some? && saved.memory.value.runs.Some?
                    && DecodeRuns(saved.memory.value.runs.value) == Some(w'.runs))
  {
    WriteToStorage(w.(runs := w.runs + [WorkflowRun(w.runInput.value, w.runResponse)]))
  }

  /** Whether a run with this result, consumed by `pulls` requests, is finalized:
      a single response always is, a stream only once it has been drained. */
  predicate Finalizes(result: UserResult, pulls: nat) {
    result.Single? || (result.Stream? && pulls > |result.items|)
  }

  /** `run_workflow`, with the result of the user's run function given. */
  method RunWorkflow(w: Workflow, runId: string, input: RunInput, result: UserResult, pulls: nat)
    returns (w': Workflow, out: RunOutput)
    requires w.sessionId.Some?
    ensures w'.sessionId == w.sessionId
    ensures Identified(w) ==> Identified(w') && w'.workflowId == w.workflowId && w'.name == w.name
    ensures var w0 := BeginRun(w, runId, input);
      && w'.runId == Some(runId)
      && w'.runResponse == w0.runResponse.(content := w'.runResponse.content)
      && w' == w0.(runResponse := w'.runResponse, runs := w'.runs, storage := w'.storage, cached := w'.cached)
      && (result.Other? ==> out == NoOutput && w' == w0)
      && (result.Single? ==>
            && out == Returned(Stamp(result.response, w0))
            && w'.runResponse.content ==
                 (if result.response.content.Some? && result.response.content.value.Str?
                  then result.response.content else None))
      && (result.Stream? ==>
            && out.Streamed?
            && |out.yielded| == Min(pulls, |result.items|)
            && (forall j :: 0 <= j < |out.yielded| ==> out.yielded[j] == StampItem(result.items[j], w0))
            && w'.runResponse.content == Some(Str(Texts(result.items[..|out.yielded|]))))
      && (Finalizes(result, pulls) ==> w'.runs == w0.runs + [WorkflowRun(input, w'.runResponse)])
      && (!Finalizes(result, pulls) ==> w'.runs == w0.runs && w'.storage == w0.storage && w'.cached == w0.cached)
      && (Finalizes(result, pulls) && w.storage.Some? ==>
            && w0.storage.Some? && w'.storage.Some?
            && w'.storage.value.accepts == w.storage.value.accepts
            && (w.storage.value.accepts ==>
                  && w'.storage.value.sessions == w0.storage.value.sessions[w.sessionId.value := GetWorkflowSession(w')]
                  && w'.cached == Some(GetWorkflowSession(w')))
            && (!w.storage.value.accepts ==>
                  w'.storage.value.sessions == w0.storage.value.sessions && w'.cached.None?))
    ensures w.storage.None? ==> w'.storage.None? && w'.cached == BeginRun(w, runId, input).cached
    ensures w.storage.Some? ==>
              && w'.storage.Some?
              && w'.storage.value.accepts == w.storage.value.accepts
              && w'.storage.value.ops == w.storage.value.ops + [Read(w.sessionId.value)]
                   + (if Finalizes(result, pulls) then [Upsert(w.sessionId.value)] else [])
    ensures Finalizes(result, pulls) && w.storage.Some? && w.storage.value.accepts ==>
              && w.sessionId.value in w'.storage.value.sessions
              && var saved := w'.storage.value.sessions[w.sessionId.value];
              && saved.memory.Some? && saved.memory.value.runs.Some?
              && DecodeRuns(saved.memory.value.runs.value) == Some(w'.runs)
  {
    var w0 := BeginRun(w, runId, input);
    match result {
      case Other(_) =>
        w' := w0;
        out := NoOutput;
      case Single(resp) =>
        w' := w0;
        if resp.content.Some? && resp.content.value.Str? {
          w' := w'.(runResponse := w'.runResponse.(content := resp.content));
        }
        w' := FinishRun(w');
        out := Returned(Stamp(resp, w0));
      case Stream(items) =>
        w' := w0.(runResponse := w0.runResponse.(content := Some(Str(""))));
        var yielded: seq<Item> := [];
        var i := 0;
        while i < |items| && i < pulls
          invariant i <= |items| && i <= pulls
          invariant |yielded| == i
          invariant forall j :: 0 <= j < i ==> yielded[j] == StampItem(items[j], w0)
          invariant w' == w0.(runResponse := w0.runResponse.(content := Some(Str(Texts(items[..i])))))
        {
          var item := items[i];
          TextsSnoc(items[..i], item);
          assert items[..i + 1] == items[..i] + [item];
          if item.Response? && item.response.content.Some? && item.response.content.value.Str? {
            var acc := w'.runResponse.content.value.s;
            w' := w'.(runResponse := w'.runResponse.(content := Some(Str(acc + item.response.content.value.s))));
          } else {
            assert Texts(items[..i]) + TextOf(item) == Texts(items[..i]);
          }
          if item.Response? {
            item := Response(Stamp(item.response, w0));
          }
          yielded := yielded + [item];
          i := i + 1;
        }
        if pulls > |items| {
          w' := FinishRun(w');
        }
        out := Streamed(yielded);
    }
  }
}

=== FILE: store.dfy ===
/**
  The session store a workflow talks to, as a map from session id to stored
  record. The store also keeps the log of calls made to it, so that the number
  and order of reads and writes an operation performs can be stated.
 */
module SessionStore {
  import opened Values
  import opened Records

  /** One call made to the store. */
  datatype StoreOp = Read(id: string) | Upsert(id: string)

  /** A store: its sessions, whether it accepts writes (a store that does not
      answers an upsert with nothing), and the calls made to it so far. */
  datatype Store = Store(sessions: map<string, SessionRecord>, accepts: bool, ops: seq<StoreOp>)

  /** The answer of a store call: the store afterwards and the record returned. */
  datatype Reply = Reply(store: Store, record: Option<SessionRecord>)

  /** Every record is filed under its own session id. */
  ghost predicate Keyed(s: Store) {
    forall id :: id in s.sessions ==> s.sessions[id].sessionId == id
  }

  /** `storage.read(session_id)`: the record filed under `id`, if any. */
  function ReadSession(s: Store, id: string): (r: Reply)
    ensures r.store == s.(ops := s.ops + [Read(id)])
    ensures r.record.Some? <==> id in s.sessions
    ensures r.record.Some? ==> r.record.value == s.sessions[id]
    ensures Keyed(s) && r.record.Some? ==> r.record.value.sessionId == id
  {
    Reply(s.(ops := s.ops + [Read(id)]), if id in s.sessions then Some(s.sessions[id]) else None)
  }

  /** `storage.upsert(session)`: files the record under its session id and
      echoes it back, or answers nothing and changes nothing. */
  function UpsertSession(s: Store, rec: SessionRecord): (r: Reply)
    ensures r.store.ops == s.ops + [Upsert(rec.sessionId)]
    ensures r.store.accepts == s.accepts
    ensures r.record.Some? <==> s.accepts
    ensures s.accepts ==> r.record == Some(rec) && r.store.sessions == s.sessions[rec.sessionId := rec]
    ensures !s.accepts ==> r.store.sessions == s.sessions
    ensures Keyed(s) ==> Keyed(r.store)
  {
    if s.accepts then
      Reply(s.(sessions := s.sessions[rec.sessionId := rec], ops := s.ops + [Upsert(rec.sessionId)]), Some(rec))
    else
      Reply(s.(ops := s.ops + [Upsert(rec.sessionId)]), None)
  }
}

=== FILE: sync.dfy ===
/**
  Keeping a workflow and its stored session in step: reading the session into
  the workflow, writing the workflow's snapshot back, loading-or-creating the
  session, and renaming a stored session.
 */
module Sync {
  import opened Values
  import opened SessionStore
  import opened WorkflowState

  /** The workflow after an operation that may raise, and what the operation
      returned or raised. */
  datatype Step<+T> = Step(w: Workflow, out: Outcome<T>)

  /** The workflow's store, when it has one, files every record under its own id. */
  ghost predicate StoreKeyed(w: Workflow) {
    w.storage.Some? ==> Keyed(w.storage.value)
  }

  /** `read_from_storage`: reads the workflow's session from the store and, when
      found, folds it into the workflow. The cached record is replaced by what
      the store answered, even when it answered nothing. */
  function ReadFromStorage(w: Workflow): (w': Workflow)
    ensures w.storage.None? || w.sessionId.None? ==> w' == w
    ensures w.storage.Some? && w.sessionId.Some? ==>
              var s := w.storage.value;
              var id := w.sessionId.value;
              && w'.storage == Some(s.(ops := s.ops + [Read(id)]))
              && (id !in s.sessions ==> w' == w.(storage := w'.storage, cached := None))
              && (id in s.sessions ==>
                    && w'.cached == Some(s.sessions[id])
                    && w' == FromWorkflowSession(w.(storage := w'.storage, cached := w'.cached), s.sessions[id]))
    ensures w'.sessionId == w.sessionId || w.sessionId.None?
    ensures Identified(w) ==> Identified(w') && w'.workflowId == w.workflowId && w'.name == w.name
    ensures StoreKeyed(w) ==> StoreKeyed(w')
  {
    if w.storage.Some? && w.sessionId.Some? then
      var reply := ReadSession(w.storage.value, w.sessionId.value);
      var w1 := w.(storage := Some(reply.store), cached := reply.record);
      if reply.record.Some? then FromWorkflowSession(w1, reply.record.value) else w1
    else
      w
  }

  /** `write_to_storage`: upserts the workflow's current snapshot and caches
      whatever the store echoes back. Without a store nothing happens. */
  function WriteToStorage(w: Workflow): (w': Workflow)
    requires w.sessionId.Some?
    ensures w.storage.None? ==> w' == w
    ensures w.storage.Some? ==>
              var s := w.storage.value;
              var id := w.sessionId.value;
              && w'.storage.Some?
              && w'.storage.value.ops == s.ops + [Upsert(id)]
              && w'.storage.value.accepts == s.accepts
              && (s.accepts ==>
                    && w'.storage.value.sessions == s.sessions[id := GetWorkflowSession(w)]
                    && w'.cached == Some(GetWorkflowSession(w)))
              && (!s.accepts ==> w'.storage.value.sessions == s.sessions && w'.cached.None?)
    ensures w' == w.(storage := w'.storage, cached := w'.cached)
    ensures StoreKeyed(w) ==> StoreKeyed(w')
  {
    if w.storage.Some? then
      var reply := UpsertSession(w.storage.value, GetWorkflowSession(w));
      w.(storage := Some(reply.store), cached := reply.record)
    else
      w
  }

  /** `load_session`: returns the session id, reading the session from the store
      or, when the store does not have it, creating it there. A cached record of
      the same session short-circuits everything unless `force` is set; a store
      that cannot create the session makes the load raise. */
  function LoadSession(w: Workflow, force: bool): (r: Step<string>)
    requires w.sessionId.Some?
    ensures r.w.sessionId == w.sessionId
    ensures r.out.Ok? ==> r.out.value == w.sessionId.value
    ensures w.cached.Some? && !force && w.cached.value.sessionId == w.sessionId.value ==>
              r == Step(w, Ok(w.sessionId.value))
    ensures w.storage.None? ==> r == Step(w, Ok(w.sessionId.value))
    ensures !(w.cached.Some? && !force && w.cached.value.sessionId == w.sessionId.value) && w.storage.Some? ==>
              var s := w.storage.value;
              var id := w.sessionId.value;
              && r.w.storage.Some?
              && (id in s.sessions ==>
                    && r.out.Ok?
                    && r.w.storage.value == s.(ops := s.ops + [Read(id)])
                    && r.w.cached == Some(s.sessions[id])
                    && r.w == FromWorkflowSession(w.(storage := r.w.storage, cached := r.w.cached), s.sessions[id]))
              && (id !in s.sessions ==>
                    && r.w == w.(storage := r.w.storage, cached := r.w.cached)
                    && r.w.storage.value.ops == s.ops + [Read(id), Upsert(id)]
                    && r.w.storage.value.accepts == s.accepts
                    && (r.out.Ok? <==> s.accepts)
                    && (s.accepts ==>
                          && r.w.storage.value.sessions == s.sessions[id := GetWorkflowSession(w)]
                          && r.w.cached == Some(GetWorkflowSession(w)))
                    && (!s.accepts ==> r.w.storage.value.sessions == s.sessions && r.w.cached.None?))
    ensures StoreKeyed(w) && r.out.Ok? && w.storage.Some? ==>
              r.w.cached.Some? && r.w.cached.value.sessionId == w.sessionId.value
    ensures Identified(w) ==> Identified(r.w) && r.w.workflowId == w.workflowId && r.w.name == w.name
    ensures StoreKeyed(w) ==> StoreKeyed(r.w)
  {
    var id := w.sessionId.value;
    if w.cached.Some? && !force && w.cached.value.sessionId == id then
      Step(w, Ok(id))
    else if w.storage.None? then
      Step(w, Ok(id))
    else
      var w1 := ReadFromStorage(w);
      if w1.cached.Some? then
        Step(w1, Ok(id))
      else
        var w2 := WriteToStorage(w1);
        if w2.cached.None? then
          Step(w2, Raised("Failed to create new WorkflowSession in storage"))
        else
          Step(w2, Ok(id))
  }

  /** After a successful load, loading again without `force` is answered from the
      cache: it returns the same id, changes nothing and makes no store call. */
  lemma LoadSessionIdempotent(w: Workflow, force: bool)
    requires w.sessionId.Some? && StoreKeyed(w)
    ensures var r := LoadSession(w, force);
      r.out.Ok? ==> LoadSession(r.w, false) == Step(r.w, Ok(w.sessionId.value))
  {
  }

  /** `rename_session`: sets "session_name" in the session data of the stored
      session `id`. An unknown id, or a stored session without session data,
      raises before anything is written. Only the store changes; the
      workflow's cached record is left as it was. */
  function RenameSession(w: Workflow, id: string, name: string): (r: Step<()>)
    ensures r.w == w.(storage := r.w.storage)
    ensures w.storage.None? ==> r.out.Raised? && r.w == w
    ensures w.storage.Some? ==>
              var s := w.storage.value;
              && r.w.storage.Some?
              && (id !in s.sessions || s.sessions[id].sessionData.None? ==>
                    r.out.Raised? && r.w.storage.value == s.(ops := s.ops + [Read(id)]))
              && (id in s.sessions && s.sessions[id].sessionData.Some? && Keyed(s) ==>
                    var s' := r.w.storage.value;
                    var before := s.sessions[id];
                    && r.out.Ok?
                    && s'.ops == s.ops + [Read(id), Upsert(id)]
                    && s'.accepts == s.accepts
                    && (!s.accepts ==> s'.sessions == s.sessions)
                    && (s.accepts ==>
                          && s'.sessions.Keys == s.sessions.Keys
                          && (forall o :: o in s.sessions && o != id ==> s'.sessions[o] == s.sessions[o])
                          && var after := s'.sessions[id];
                             && after == before.(sessionData := after.sessionData)
                             && after.sessionData.Some?
                             && after.sessionData.value.Keys == before.sessionData.value.Keys + {"session_name"}
                             && after.sessionData.value["session_name"] == Str(name)
                             && (forall k :: k in before.sessionData.value && k != "session_name" ==>
                                   after.sessionData.value[k] == before.sessionData.value[k])))
  {
    if w.storage.None? then
      Step(w, Raised("storage is not set"))
    else
      var reply := ReadSession(w.storage.value, id);
      var w1 := w.(storage := Some(reply.store));
      if reply.record.None? then
        Step(w1, Raised("WorkflowSession not found: " + id))
      else
        var rec := reply.record.value;
        if rec.sessionData.None? then
          Step(w1, Raised("session_data is not set"))
        else
          var renamed := rec.(sessionData := Some(rec.sessionData.value["session_name" := Str(name)]));
          Step(w1.(storage := Some(UpsertSession(reply.store, renamed).store)), Ok(()))
  }

  /** A session renamed in the store is read back under its new name by a
      workflow of that session that has no session name of its own. */
  lemma RenameThenRead(w: Workflow, id: string, name: string)
    requires w.storage.Some? && Keyed(w.storage.value) && w.storage.value.accepts
    requires id in w.storage.value.sessions && w.storage.value.sessions[id].sessionData.Some?
    requires w.sessionId == Some(id) && w.sessionName.None?
    ensures ReadFromStorage(RenameSession(w, id, name).w).sessionName == Some(name)
  {
    var r := RenameSession(w, id, name);
    var stored := r.w.storage.value.sessions[id];
    assert stored.sessionData.value["session_name"] == Str(name);
  }
}

=== FILE: values.dfy ===
/**
  Values shared by every part of the workflow model: an optional value, the
  JSON-like values held in a workflow's free-form maps, and the outcome of an
  operation that may raise.
 */
module Values {

  /** An optional value: Python's `Optional[T]`, with `None` for an unset field. */
  datatype Option<+T> = None | Some(value: T)

  /** The outcome of an operation that either returns normally or raises. */
  datatype Outcome<+T> = Ok(value: T) | Raised(message: string)

  /** A JSON-like value, as stored under a key of `workflow_data`, `user_data`,
      `session_data` or `session_state`. Nested dictionaries are `Dict`. */
  datatype Value =
    | Null
    | Bool(b: bool)
    | Int(i: int)
    | Str(s: string)
    | List(items: seq<Value>)
    | Dict(entries: map<string, Value>)

  /** A free-form key-to-value dictionary (`Dict[str, Any]`). */
  type Data = map<string, Value>

  /** An optional dictionary read the way `d or {}` reads it: unset is empty. */
  function OrEmpty(d: Option<Data>): (r: Data)
    ensures d.Some? ==> r == d.value
    ensures d.None? ==> r == map[]
  {
    if d.Some? then d.value else map[]
  }

  /** The text a stored value denotes when read back into a string field:
      a string is kept, anything else reads as unset. */
  function AsText(v: Value): (r: Option<string>)
    ensures r.Some? <==> v.Str?
    ensures r.Some? ==> v == Str(r.value)
  {
    if v.Str? then Some(v.s) else None
  }
}

=== FILE: workflow.dfy ===
/**
  The state of a workflow instance: its identity, its four free-form
  dictionaries, its run history, its store and the session record it last
  loaded or saved. Construction assigns the identity; `GetWorkflowSession`
  takes the snapshot that is saved, and `FromWorkflowSession` folds a stored
  session back into the instance.
 */
module WorkflowState {
  import opened Values
  import opened MergeDict
  import opened Records
  import opened SessionStore

  /** The fields a caller may set when constructing a workflow. */
  datatype Settings = Settings(
    name: Option<string>,
    workflowId: Option<string>,
    workflowData: Option<Data>,
    userId: Option<string>,
    userData: Option<Data>,
    sessionId: Option<string>,
    sessionName: Option<string>,
    sessionData: Option<Data>,
    sessionState: Data,
    runs: seq<WorkflowRun>,
    storage: Option<Store>)

  /** A workflow instance. `runs` is the run history of its memory, `cached` the
      session record last read from or written to the store, and `runId`,
      `runInput` and `runResponse` describe the current run. */
  datatype Workflow = Workflow(
    name: Option<string>,
    workflowId: Option<string>,
    workflowData: Option<Data>,
    userId: Option<string>,
    userData: Option<Data>,
    sessionId: Option<string>,
    sessionName: Option<string>,
    sessionData: Option<Data>,
    sessionState: Data,
    runs: seq<WorkflowRun>,
    storage: Option<Store>,
    cached: Option<SessionRecord>,
    runId: Option<string>,
    runInput: Option<RunInput>,
    runResponse: RunResponse)

  /** A workflow whose name, workflow id and session id are all set and non-empty. */
  predicate Identified(w: Workflow) {
    && w.name.Some? && w.name.value != ""
    && w.workflowId.Some? && w.workflowId.value != ""
    && w.sessionId.Some? && w.sessionId.value != ""
  }

  /** The `workflow_id` and `session_id` validators, and the name default: a
      supplied value is kept unless it is unset or empty, in which case `token`
      (a newly generated id, or the class name) is used. */
  function OrDefault(supplied: Option<string>, token: string): (id: string)
    requires token != ""
    ensures id != ""
    ensures supplied.Some? && supplied.value != "" ==> id == supplied.value
    ensures supplied.None? || supplied.value == "" ==> id == token
  {
    if supplied.Some? && supplied.value != "" then supplied.value else token
  }

  /** Constructs a workflow. `className` is the name of the workflow's class,
      the default name; the two fresh tokens stand for newly generated UUIDs. */
  function NewWorkflow(s: Settings, className: string, freshWorkflowId: string, freshSessionId: string): (w: Workflow)
    requires className != "" && freshWorkflowId != "" && freshSessionId != ""
    ensures Identified(w)
    ensures s.workflowId.Some? && s.workflowId.value != "" ==> w.workflowId == s.workflowId
    ensures s.workflowId.None? || s.workflowId.value == "" ==> w.workflowId == Some(freshWorkflowId)
    ensures s.sessionId.Some? && s.sessionId.value != "" ==> w.sessionId == s.sessionId
    ensures s.sessionId.None? || s.sessionId.value == "" ==> w.sessionId == Some(freshSessionId)
    ensures s.name.Some? && s.name.value != "" ==> w.name == s.name
    ensures s.name.None? || s.name.value == "" ==> w.name == Some(className)
    ensures w.workflowData == s.workflowData && w.userId == s.userId && w.userData == s.userData
    ensures w.sessionName == s.sessionName && w.sessionData == s.sessionData && w.sessionState == s.sessionState
    ensures w.runs == s.runs && w.storage == s.storage
    ensures w.cached.None? && w.runId.None? && w.runInput.None?
    ensures w.runResponse == RunResponse(None, None, None, None)
  {
    Workflow(
      name := Some(OrDefault(s.name, className)),
      workflowId := Some(OrDefault(s.workflowId, freshWorkflowId)),
      workflowData := s.workflowData,
      userId := s.userId,
      userData := s.userData,
      sessionId := Some(OrDefault(s.sessionId, freshSessionId)),
      sessionName := s.sessionName,
      sessionData := s.sessionData,
      sessionState := s.sessionState,
      runs := s.runs,
      storage := s.storage,
      cached := None,
      runId := None,
      runInput := None,
      runResponse := RunResponse(None, None, None, None))
  }

  /** A dictionary (empty when unset) with `text`, when set, recorded under `key`. */
  function WithKey(base: Option<Data>, key: string, text: Option<string>): (d: Data)
    ensures text.Some? ==> key in d && d[key] == Str(text.value)
    ensures text.None? ==> d == OrEmpty(base)
    ensures forall k :: k != key ==> (k in d <==> base.Some? && k in base.value)
    ensures forall k :: k != key && k in d ==> base.Some? && d[k] == base.value[k]
  {
    var d := OrEmpty(base);
    if text.Some? then d[key := Str(text.value)] else d
  }

  /** `get_workflow_data`: the workflow dictionary with the name under "name". */
  function GetWorkflowData(w: Workflow): (d: Data)
    ensures w.name.Some? ==> "name" in d && d["name"] == Str(w.name.value)
    ensures w.name.None? ==> d == OrEmpty(w.workflowData)
    ensures forall k :: k != "name" ==> (k in d <==> w.workflowData.Some? && k in w.workflowData.value)
    ensures forall k :: k != "name" && k in d ==> d[k] == w.workflowData.value[k]
  {
    WithKey(w.workflowData, "name", w.name)
  }

  /** `get_session_data`: the session dictionary with the session name under "session_name". */
  function GetSessionData(w: Workflow): (d: Data)
    ensures w.sessionName.Some? ==> "session_name" in d && d["session_name"] == Str(w.sessionName.value)
    ensures w.sessionName.None? ==> d == OrEmpty(w.sessionData)
    ensures forall k :: k != "session_name" ==> (k in d <==> w.sessionData.Some? && k in w.sessionData.value)
    ensures forall k :: k != "session_name" && k in d ==> d[k] == w.sessionData.value[k]
  {
    WithKey(w.sessionData, "session_name", w.sessionName)
  }

  /** `get_workflow_session`: the snapshot of the workflow that is saved to the store. */
  function GetWorkflowSession(w: Workflow): (rec: SessionRecord)
    requires w.sessionId.Some?
    ensures rec.sessionId == w.sessionId.value && rec.workflowId == w.workflowId && rec.userId == w.userId
    ensures rec.userData == w.userData && rec.sessionState == Some(w.sessionState)
    ensures rec.workflowData == Some(GetWorkflowData(w)) && rec.sessionData == Some(GetSessionData(w))
    ensures rec.memory.Some? && rec.memory.value.runs.Some?
    ensures DecodeRuns(rec.memory.value.runs.value) == Some(w.runs)
  {
    DecodeEncode(w.runs);
    SessionRecord(
      sessionId := w.sessionId.value,
      workflowId := w.workflowId,
      userId := w.userId,
      memory := Some(MemoryDoc(Some(EncodeRuns(w.runs)))),
      workflowData := Some(GetWorkflowData(w)),
      userData := w.userData,
      sessionData := Some(GetSessionData(w)),
      sessionState := Some(w.sessionState))
  }

  /** `r` is what a dictionary becomes when the stored dictionary `stored` is
      folded into the workflow's `local`: with nothing stored the workflow keeps
      its own; with nothing local it adopts the stored one; with both it is the
      merge of the two, so it holds exactly the keys of either, the workflow's
      values win at every leaf, and every stored value the workflow does not
      set is kept, at every depth (`MergeOfConsequences`). */
  ghost predicate MergedFrom(r: Option<Data>, stored: Option<Data>, local: Option<Data>) {
    && (stored.None? ==> r == local)
    && (stored.Some? && local.None? ==> r == stored)
    && (stored.Some? && local.Some? ==>
          && r.Some?
          && MergeOf(r.value, stored.value, local.value))
  }

  /** One dictionary of `from_workflow_session`: the stored dictionary, updated
      with the workflow's own when it has one, replaces the workflow's. */
  function MergeInto(stored: Option<Data>, local: Option<Data>): (r: Option<Data>)
    ensures MergedFrom(r, stored, local)
  {
    match stored
    case None => local
    case Some(sd) =>
      if local.Some? then
        MergePrecedence(sd, local.value);
        Some(MergeData(sd, local.value))
      else
        stored
  }

  /** A scalar field of `from_workflow_session`: an unset local value is filled
      from the stored one. */
  function Fill<T>(local: Option<T>, stored: Option<T>): Option<T> {
    if local.Some? then local else stored
  }

  /** The name (or session name) adopted from a stored dictionary when the
      workflow has none. */
  function AdoptText(local: Option<string>, stored: Option<Data>, key: string): Option<string> {
    if local.None? && stored.Some? && key in stored.value then AsText(stored.value[key]) else local
  }

  /** The run history after reading the stored memory: the stored runs replace
      the history wholesale when every entry reads back, and nothing changes
      otherwise. */
  function LoadRuns(runs: seq<WorkflowRun>, memory: Option<MemoryDoc>): seq<WorkflowRun> {
    if memory.Some? && memory.value.runs.Some? then
      match DecodeRuns(memory.value.runs.value)
      case Some(stored) => stored
      case None => runs
    else
      runs
  }

  /** `from_workflow_session`: folds a stored session into the workflow. */
  function FromWorkflowSession(w: Workflow, rec: SessionRecord): (w': Workflow)
    ensures w.sessionId.Some? ==> w'.sessionId == w.sessionId
    ensures w.sessionId.None? ==> w'.sessionId == Some(rec.sessionId)
    ensures w.workflowId.Some? ==> w'.workflowId == w.workflowId
    ensures w.workflowId.None? ==> w'.workflowId == rec.workflowId
    ensures w.userId.Some? ==> w'.userId == w.userId
    ensures w.userId.None? ==> w'.userId == rec.userId
    ensures w.name.Some? ==> w'.name == w.name
    ensures w.name.None? && rec.workflowData.Some? && "name" in rec.workflowData.value ==>
              w'.name == AsText(rec.workflowData.value["name"])
    ensures w.name.None? && (rec.workflowData.None? || "name" !in rec.workflowData.value) ==> w'.name.None?
    ensures w.sessionName.Some? ==> w'.sessionName == w.sessionName
    ensures w.sessionName.None? && rec.sessionData.Some? && "session_name" in rec.sessionData.value ==>
              w'.sessionName == AsText(rec.sessionData.value["session_name"])
    ensures w.sessionName.None? && (rec.sessionData.None? || "session_name" !in rec.sessionData.value) ==>
              w'.sessionName.None?
    ensures MergedFrom(w'.workflowData, rec.workflowData, w.workflowData)
    ensures MergedFrom(w'.userData, rec.userData, w.userData)
    ensures MergedFrom(w'.sessionData, rec.sessionData, w.sessionData)
    ensures MergedFrom(Some(w'.sessionState), rec.sessionState, Some(w.sessionState))
    ensures rec.memory.Some? && rec.memory.value.runs.Some? && DecodeRuns(rec.memory.value.runs.value).Some? ==>
              w'.runs == DecodeRuns(rec.memory.value.runs.value).value
    ensures !(rec.memory.Some? && rec.memory.value.runs.Some? && DecodeRuns(rec.memory.value.runs.value).Some?) ==>
              w'.runs == w.runs
    ensures w'.storage == w.storage && w'.cached == w.cached
    ensures w'.runId == w.runId && w'.runInput == w.runInput && w'.runResponse == w.runResponse
    ensures Identified(w) ==> Identified(w')
  {
    w.(
      sessionId := Fill(w.sessionId, Some(rec.sessionId)),
      workflowId := Fill(w.workflowId, rec.workflowId),
      userId := Fill(w.userId, rec.userId),
      name := AdoptText(w.name, rec.workflowData, "name"),
      workflowData := MergeInto(rec.workflowData, w.workflowData),
      userData := MergeInto(rec.userData, w.userData),
      sessionName := AdoptText(w.sessionName, rec.sessionData, "session_name"),
      sessionData := MergeInto(rec.sessionData, w.sessionData),
      sessionState := MergeInto(rec.sessionState, Some(w.sessionState)).value,
      runs := LoadRuns(w.runs, rec.memory))
  }

  /** Folding the same stored session in twice is the same as folding it in once. */
  lemma FromSessionIdempotent(w: Workflow, rec: SessionRecord)
    ensures FromWorkflowSession(FromWorkflowSession(w, rec), rec) == FromWorkflowSession(w, rec)
  {
    var w1 := FromWorkflowSession(w, rec);
    var w2 := FromWorkflowSession(w1, rec);
    AbsorbInto(rec.workflowData, w.workflowData);
    AbsorbInto(rec.userData, w.userData);
    AbsorbInto(rec.sessionData, w.sessionData);
    AbsorbInto(rec.sessionState, Some(w.sessionState));
  }

  lemma AbsorbInto(stored: Option<Data>, local: Option<Data>)
    ensures MergeInto(stored, MergeInto(stored, local)) == MergeInto(stored, local)
  {
    if stored.Some? {
      if local.Some? {
        MergeAbsorb(stored.value, local.value);
      } else {
        MergeSelf(stored.value);
      }
    }
  }

  /** Saving a workflow and folding the saved snapshot straight back in leaves its
      identity, user dictionary, session state and run history as they were. */
  lemma SnapshotRoundTrip(w: Workflow)
    requires Identified(w)
    ensures var w' := FromWorkflowSession(w, GetWorkflowSession(w));
      && w'.sessionId == w.sessionId && w'.workflowId == w.workflowId && w'.userId == w.userId
      && w'.name == w.name
      && (w.sessionName.Some? ==> w'.sessionName == w.sessionName)
      && w'.userData == w.userData
      && w'.sessionState == w.sessionState
      && w'.runs == w.runs
  {
    if w.userData.Some? {
      MergeSelf(w.userData.value);
    }
    MergeSelf(w.sessionState);
  }

  /** A new instance that names the session another instance saved, and sets no
      user, user dictionary, session state or history of its own, resumes that
      session: it takes over the saved user, dictionaries' contents, session
      state and the whole run history in order. */
  lemma ResumeSession(saved: Workflow, resumer: Workflow)
    requires saved.sessionId.Some?
    requires resumer.sessionId == saved.sessionId
    requires resumer.userId.None? && resumer.userData.None? && resumer.sessionState == map[]
    ensures var w' := FromWorkflowSession(resumer, GetWorkflowSession(saved));
      && w'.sessionId == saved.sessionId
      && w'.userId == saved.userId
      && w'.userData == saved.userData
      && w'.sessionState == saved.sessionState
      && w'.runs == saved.runs
  {
  }
}
